=== FILE: README.md ===
# Ethereum explorer back end — a Dafny model

The service is a thin HTTP façade over a block-explorer API (Etherscan v2).
It has three endpoints: a health check, a wallet lookup and a transaction lookup. Each validates its path
parameter, sends one or more sequential requests upstream, and reshapes the
JSON replies into a flatter response. This project models that request
shaping in Dafny and proves what each endpoint sends, in which order, and
what each response field means in terms of the provider's replies.

The model is functional:

- `JsonValues.Json` is a decoded JSON value. Its operations (`Get`, `Item`, `First`,
  `ToInt`, `HexToInt`, `Iterate`, `Length`, `LowerText`) follow the Python
  operations the handlers apply to it. Each reports `Raised` where Python raises, within the
  limits listed under "Left out" (notably the digit limit of `int`).
- `Upstream.Provider` is the provider as an abstract function from the
  parameters actually sent to `Option<Json>`. `None` stands for every
  failure the client swallows: transport error, timeout, non-2xx status, or a body that is not JSON.
- Each handler is a pure function returning `Service.Reply(status, body,
  calls)`. `calls` is the ordered log of requests sent upstream, each with its
  parameters and the pacing delay taken before it.
- An exception the handler does not catch ends the request with status 500
  (what Flask answers), after the requests sent so far. Examples: `int()` of a malformed
  number, a missing `result` key, `.get` on a non-object.
- Every wei and gas quantity is the integer the source computes before
  dividing by 10^18 or 10^9.

Modules: `Wrappers` (Option, Outcome), `Strings`, `IntText` (Python's
`int(s)` / `int(s, 16)`), `JsonValues`, `Upstream` (`make_api_call`),
`Service` (response shapes, health check), `Wallet`, `Transaction`.

Behaviour of the code worth knowing:

- An address or hash is checked only for the `0x` prefix and its total length. A 42-character
  `0x` string of non-hex characters is accepted (`Wallet.NonHexAddressAccepted`).
- With no receipt, `status` is null.
- The recipient marker is the literal `"Contract Creation"`. It is used whenever `to` is
  falsy (absent, null or empty).
- The token filter tests the unrounded balance. So a positive balance that rounds to
  `0.0` at six decimals is still listed.

## Model

| member | source | states |
|---|---|---|
| Upstream.Outgoing | app.py:40-44 | the sent parameters are the caller's map plus `chainid = "1"`, plus `apikey` exactly when a non-empty key is configured; every other entry is unchanged |
| Upstream.OutgoingKeeps | app.py:42-44 | a caller entry other than `chainid`/`apikey` reaches the provider unchanged |
| Upstream.PacingDelayMs | app.py:46-47 | the pause before each request is 200 ms with a key and 5000 ms without |
| Upstream.SendsInjectParameters | app.py:40-47 | every request of a log carries the chain id, carries the key exactly when configured, keeps the caller's entries and waits the configured pause |
| Service.HealthCheck | app.py:65-72 | the health check answers 200 with no upstream request and reports whether a key is loaded |
| IntText.ParseInt | app.py:185-188 | Python `int(s, base)` succeeds exactly when sign and prefix are followed by digits of the base; the value is the digits' value, negated exactly for a leading `-` |
| IntText.DigitsRoundTrip | app.py:185-188 | the digit string of a natural number parses back to that number |
| IntText.MagnitudeOfWritten | app.py:185-188 | taking off the sign and `0x` prefix of a written number leaves its digits, and the sign is read back |
| IntText.ParseWritten | app.py:185-188 | a written digit string parses to its value, negated exactly when a minus sign was written |
| IntText.ParseFormat | app.py:185-188 | an integer written as the provider writes it (decimal, or `0x` hexadecimal) parses back to itself |
| IntText.OneEtherInHex | app.py:185 | `0xde0b6b3a7640000` is 10^18 wei |
| IntText.BarePrefixRejected | app.py:185 | `int("0x", 16)` and `int("", 10)` raise: a prefix or sign without digits is not a number |
| IntText.SignedPrefixExamples | app.py:185 | `int("-0X1A", 16)` is -26, `int("+0x1a", 16)` is 26 and `int("-5")` is -5 |
| Strings.Lower | app.py:130 | lower-casing keeps the length and maps each character by ASCII lower-casing |
| JsonValues.Truthy | app.py:94 | a JSON value is falsy exactly when it is null, false, 0, the empty string, the empty list or the empty object |
| JsonValues.ToInt | app.py:95 | `int(j)` of text succeeds exactly when the text parses as a decimal integer, giving that value; an integer is kept, a boolean is 0 or 1, and null, lists and objects raise |
| JsonValues.HexToInt | app.py:185-188 | `int(j, 16)` succeeds exactly for text that parses in base 16, giving that value |
| JsonValues.First | app.py:107 | `j[0]` succeeds exactly for a non-empty list or string, giving its first element or first character |
| JsonValues.Iterate | app.py:121-122 | the loop visits a list's items in order and nothing for an empty string or object; anything else raises |
| Strings.EqualIgnoringCaseCharwise | app.py:130 | the outgoing comparison holds exactly when both strings have equal length and agree letter by letter up to ASCII case |
| Strings.UpperEqualIgnoringCase | app.py:130 | an upper-cased spelling still compares equal to the original |
| Strings.LowerChangesOnlyLetters | app.py:130 | lower-casing removes every upper-case ASCII letter and changes no other character |
| Wallet.CommonTokensDistinct | app.py:28-33 | the registry's symbols are distinct, as the keys of the source's dict are |
| Wallet.ValidAddress | app.py:82 | an address is accepted exactly when it has 42 characters and begins with `0x` |
| Wallet.NonHexAddressAccepted | app.py:82-83 | only the `0x` prefix and the 42-character length are checked |
| Wallet.Succeeded | app.py:94 | `data and data.get("status") == "1"` holds exactly for an object whose status is the text `"1"`, and raises exactly for a truthy non-object |
| Wallet.ReportedInt | app.py:94-97 | a balance is reported only for a reply that succeeded with status `"1"`, and it is `int` of its `result`; such a reply raises exactly when `result` is missing or not an integer, and any other reply reads as no balance unless it is a truthy non-object |
| Wallet.IsContract | app.py:105-108 | the contract flag holds exactly when getsourcecode succeeded with status `"1"` and the first result entry has non-empty `SourceCode`; a status-`"1"` reply raises exactly when `result` is missing, has no first entry, or that entry is not an object |
| Wallet.PlainAccountIsNotContract | app.py:105-108 | a status-`"1"` getsourcecode reply whose first entry has empty `SourceCode` reads as not a contract |
| Wallet.Row | app.py:123-131 | a transaction row copies hash, from, to, block and timestamp, reads `value` as a decimal integer, and is outgoing exactly when `from` (default `""`) equals the address ignoring case |
| Wallet.Rows | app.py:120-131 | the rows follow the provider's entries one for one, in order, unless some entry raises |
| Wallet.Transactions | app.py:111-132 | the transaction list is empty unless txlist succeeded with status `"1"`; then it is the rows of the listed entries one for one, and it raises when `result` is missing or cannot be iterated |
| Wallet.TokenLoop | app.py:134-149 | the token loop sends at most one request per registry entry, in order; it completes, having sent them all, exactly when no reply raises |
| Wallet.TokenLoopStopsAtFirstRaise | app.py:134-147 | a loop that raises stops at the first reply that raises: every earlier reply was read and no later request is sent |
| Wallet.TokenLoopAllFailed | app.py:144 | when every token request fails, all are sent and no balance is added |
| Wallet.TokenLoopKeeps | app.py:136-147 | each registry symbol ends with its positive balance, or keeps what it had when its balance is not positive or its request failed |
| Wallet.TokenBalancesListPositive | app.py:136-149 | a symbol is listed exactly when its reply succeeded with status `"1"` and a positive raw balance, and it is listed with that balance |
| Wallet.WalletLookup | app.py:75-151 | 400 with no request exactly for an invalid address; otherwise the requests are a prefix of the fixed plan, as long as `Assemble` counts on the replies, so a 500 stops at the step that raised; a 200 has sent all 3 + 4 of them |
| Wallet.Assemble | app.py:85-151 | the steps stop at the first that raises: after 1, 2 or 3 requests for the fixed steps, and after 3 plus the token loop's count otherwise; the summary is built exactly when every step completes, and then holds each step's result |
| Wallet.AssembleTokens | app.py:134-149 | a built summary lists exactly the registry symbols whose reading reports a positive balance, each with that balance |
| Wallet.WalletLookupSucceeds | app.py:75-151 | a wallet lookup answers 200 exactly when the address is valid and neither the balance, source-code and txlist replies nor any token reply makes its step raise |
| Wallet.WalletLookupFields | app.py:88-132 | in a 200 reply the ether balance is present exactly when the balance reply succeeded with status `"1"` and is its reported integer; the contract flag and the transaction list are read off the source-code and txlist replies |
| Wallet.WalletLookupTokens | app.py:134-149 | in a 200 reply a symbol is listed exactly when its token reply reports a positive balance, and it is listed with that balance |
| Wallet.WalletDegradesToEmpty | app.py:85-151 | a valid address gets 200 even when every upstream request fails |
| Wallet.WalletPlan | app.py:88-143 | the planned requests are balance, getsourcecode, txlist (newest first, page 1, 10 entries), then tokenbalance for each registry entry in definition order |
| Wallet.FixedQueriesSent | app.py:88-118 | the three fixed requests as sent carry the actions balance, getsourcecode and txlist |
| Wallet.TokenQuerySent | app.py:137-143 | a token request as sent asks for `tokenbalance` of that token's contract |
| Wallet.WalletCallOrder | app.py:88-143 | the requests of a full lookup, as sent, are balance, getsourcecode, txlist, then one tokenbalance per registry contract in registry order |
| Transaction.Found | app.py:171-174 | the lookup is not found exactly when the by-hash reply is missing, falsy, or has a falsy `result`; otherwise the transaction is that `result` |
| Transaction.ValidHash | app.py:161 | a hash is accepted exactly when it has 66 characters and begins with `0x` |
| Transaction.ReceiptOf | app.py:182 | a missing or falsy receipt reply leaves no receipt; an object reply gives its `result` (null when absent); a truthy non-object raises |
| Transaction.Recipient | app.py:193 | the recipient is `"Contract Creation"` when `to` is absent, null or empty, and `to` unchanged when it is non-empty text |
| Transaction.BlockNumber | app.py:188 | the block is null exactly when `blockNumber` is absent or falsy; otherwise it is the hexadecimal value of `blockNumber`, raising exactly when that does not parse |
| Transaction.MethodId | app.py:199-200 | for text input the selector is its first 10 characters exactly when it is longer than 10, and null otherwise |
| Transaction.ReceiptFields | app.py:206-210 | with no receipt, status, gas used and gas cost are all null; with one, status is success exactly for `"0x1"`, gas used is the hex `gasUsed` (default `0x0`) and gas cost is gas used times gas price; it raises exactly for an unreadable receipt |
| Transaction.Summarize | app.py:184-204 | the summary's value, gas limit and gas price are the hexadecimal fields (default `0x0`); its input defaults to `"0x"`; the other fields follow the rules above; for a transaction object it raises exactly when one of those reads raises |
| Transaction.TransactionLookup | app.py:154-212 | 400 with no request exactly for an invalid hash; 404 after exactly the by-hash request exactly when it finds nothing; 500 after only the by-hash request when that reply raises; by-hash then receipt once a transaction is found, and 200 exactly when the transaction and receipt read and summarise without raising, carrying that summary |
| Transaction.NotFoundSkipsReceipt | app.py:165-172 | a 404 never calls the receipt endpoint |
| Transaction.ReceiptStatusExamples | app.py:206-210 | receipt status `"0x1"` reads as success, `"0x0"` as failed, and no receipt leaves the three fields null |
| Transaction.OneEtherTransfer | app.py:185 | a value of `0xde0b6b3a7640000` reads as 10^18 wei |

## Left out

- Flask routing, `jsonify`, CORS, `load_dotenv`, reading the environment and binding the port (app.py:9-24, 219-221). They are framework and configuration plumbing. The API key is the `Config` parameter.
- The HTTP request, `raise_for_status`, `.json()` and the collapse of their exceptions into `None` (app.py:49-58). They are foreign I/O, represented only by the `Provider` parameter returning `None`.
- `time.sleep` (app.py:47). It is wall-clock behaviour; only the chosen delay is recorded, in milliseconds.
- All float arithmetic: `/ 1e18`, `/ 1e9` and `round(…, 6)` (app.py:95, 127, 145-147, 194, 198, 210). The model keeps the integer wei or gas amount each is computed from. So the `OverflowError` that Python raises when converting integers above about 10^308 to float is not modelled.
- `print` logging (app.py:54, 57).
- IntText.ParseInt: does not accept the surrounding whitespace, the underscores between digits, or the non-ASCII digits that Python's `int` accepts. It reports those spellings as a `ValueError`. It also has no digit limit: Python 3.10.7 and later raise `ValueError` for a decimal string of more than 4300 digits, which the model parses. A status-"1" balance reply carrying such a string therefore gets 200 here where the service answers 500.
- Strings.Lower: lower-cases ASCII letters only, whereas Python's `str.lower` also folds other Unicode letters.
- JsonValues.Json: has no numbers with a fraction or an exponent. The provider sends every quantity as text.
- JsonValues.Iterate: a `for` loop over a non-empty string or object raises at once. In Python, the loop body's `.get` raises on the first item. The outcome is the same.

=== FILE: int_text.dfy ===
/** Python's `int(s)` and `int(s, 16)` on text: an optional sign, for base 16
    an optional `0x`/`0X` prefix, then one or more ASCII digits of the base
    (hexadecimal letters in either case); anything else is reported as
    `None`, Python's `ValueError`. Python also accepts surrounding
    whitespace, underscores between digits and non-ASCII digits, and
    refuses decimal strings of more than 4300 digits; none of that is
    modelled. */
module IntText {
  import opened Wrappers

  predicate ValidBase(base: nat) {
    base == 10 || base == 16
  }

  /** The value of `c` as a digit of `base`, if it is one. */
  function DigitValue(c: char, base: nat): (d: Option<nat>)
    requires ValidBase(base)
    ensures d.Some? ==> d.value < base
  {
    var v: int :=
      if '0' <= c <= '9' then c as int - '0' as int
      else if 'a' <= c <= 'f' then c as int - 'a' as int + 10
      else if 'A' <= c <= 'F' then c as int - 'A' as int + 10
      else base;
    if 0 <= v < base then Some(v) else None
  }

  /** The lower-case character of digit `d`. */
  function DigitChar(d: nat): char
    requires d < 16
  {
    if d < 10 then ('0' as int + d) as char else ('a' as int + d - 10) as char
  }

  lemma DigitCharValue(d: nat, base: nat)
    requires ValidBase(base) && d < base
    ensures DigitValue(DigitChar(d), base) == Some(d)
  {
  }

  predicate IsDigits(ds: string, base: nat)
    requires ValidBase(base)
  {
    |ds| > 0 && forall i :: 0 <= i < |ds| ==> DigitValue(ds[i], base).Some?
  }

  /** The value of a digit string, most significant digit first. */
  function DigitsValue(ds: string, base: nat): nat
    requires ValidBase(base) && IsDigits(ds, base)
    decreases |ds|
  {
    var last := DigitValue(ds[|ds| - 1], base).value;
    if |ds| == 1 then last
    else DigitsValue(ds[..|ds| - 1], base) * base + last
  }

  /** The shortest digit string of `n` in `base`, lower-case. */
  function Digits(n: nat, base: nat): (ds: string)
    requires ValidBase(base)
    decreases n
  {
    if n < base then [DigitChar(n)]
    else Digits(n / base, base) + [DigitChar(n % base)]
  }

  lemma {:induction false} DigitsRoundTrip(n: nat, base: nat)
    requires ValidBase(base)
    ensures IsDigits(Digits(n, base), base)
    ensures DigitsValue(Digits(n, base), base) == n
    decreases n
  {
    var ds := Digits(n, base);
    DigitCharValue(n % base, base);
    if n >= base {
      var front := Digits(n / base, base);
      DigitsRoundTrip(n / base, base);
      assert ds == front + [DigitChar(n % base)];
      assert ds[..|ds| - 1] == front;
      assert forall i :: 0 <= i < |ds| ==> DigitValue(ds[i], base).Some? by {
        forall i | 0 <= i < |ds|
          ensures DigitValue(ds[i], base).Some?
        {
          if i < |front| {
            assert ds[i] == front[i];
          }
        }
      }
    }
  }

  /** The text left once the sign and, in base 16, the `0x`/`0X` prefix are
      taken off. */
  function Magnitude(s: string, base: nat): string
    requires ValidBase(base)
  {
    var unsigned := if |s| > 0 && (s[0] == '-' || s[0] == '+') then s[1..] else s;
    if base == 16 && |unsigned| >= 2 && unsigned[0] == '0' && (unsigned[1] == 'x' || unsigned[1] == 'X')
    then unsigned[2..]
    else unsigned
  }

  predicate Negative(s: string) {
    |s| > 0 && s[0] == '-'
  }

  /** `int(s, base)`: `None` where Python raises `ValueError`. */
  function ParseInt(s: string, base: nat): (r: Option<int>)
    requires ValidBase(base)
    ensures r.Some? <==> IsDigits(Magnitude(s, base), base)
    ensures r.Some? && r.value < 0 ==> Negative(s)
    ensures r.Some? && !Negative(s) ==> r.value == DigitsValue(Magnitude(s, base), base)
    ensures r.Some? && Negative(s) ==> -r.value == DigitsValue(Magnitude(s, base), base)
  {
    var digits := Magnitude(s, base);
    if !IsDigits(digits, base) then None
    else
      var magnitude: int := DigitsValue(digits, base);
      Some(if Negative(s) then -magnitude else magnitude)
  }

  /** How the upstream provider writes an integer: decimal in base 10,
      `0x`-prefixed lower-case hexadecimal in base 16. */
  function FormatInt(i: int, base: nat): string
    requires ValidBase(base)
  {
    var magnitude := if i < 0 then -i else i;
    (if i < 0 then "-" else "") + (if base == 16 then "0x" else "") + Digits(magnitude, base)
  }

  /** The text `FormatInt` writes for a digit string, with or without the
      minus sign. */
  function Written(ds: string, base: nat, negative: bool): string
    requires ValidBase(base)
  {
    (if negative then "-" else "") + (if base == 16 then "0x" else "") + ds
  }

  /** Taking off the sign and prefix that `FormatInt` writes leaves the
      digits, and the sign is read back. */
  lemma MagnitudeOfWritten(ds: string, base: nat, negative: bool)
    requires ValidBase(base) && IsDigits(ds, base)
    ensures Magnitude(Written(ds, base, negative), base) == ds
    ensures Negative(Written(ds, base, negative)) == negative
  {
    var s := Written(ds, base, negative);
    var unsigned := (if base == 16 then "0x" else "") + ds;
    assert ds[0] != '-' && ds[0] != '+' by {
      assert DigitValue(ds[0], base).Some?;
    }
    assert unsigned[0] == (if base == 16 then '0' else ds[0]);
    if negative {
      assert s == "-" + unsigned && s[1..] == unsigned;
    } else {
      assert s == unsigned;
    }
    if base == 16 {
      assert unsigned[1] == 'x';
      assert unsigned[2..] == ds;
    }
  }

  /** Parsing a written digit string gives its value, negated when the
      minus sign was written. */
  lemma ParseWritten(ds: string, base: nat, negative: bool)
    requires ValidBase(base) && IsDigits(ds, base)
    ensures var value: int := DigitsValue(ds, base);
      ParseInt(Written(ds, base, negative), base) == Some(if negative then -value else value)
  {
    MagnitudeOfWritten(ds, base, negative);
  }

  /** Parsing what the provider writes gives back the integer. */
  lemma ParseFormat(i: int, base: nat)
    requires ValidBase(base)
    ensures ParseInt(FormatInt(i, base), base) == Some(i)
  {
    var magnitude := if i < 0 then -i else i;
    DigitsRoundTrip(magnitude, base);
    ParseWritten(Digits(magnitude, base), base, i < 0);
    assert FormatInt(i, base) == Written(Digits(magnitude, base), base, i < 0);
  }

  /** The hexadecimal digits of 10^18, computed a few at a time. */
  lemma OneEtherDigitsHigh()
    ensures Digits(0xde0b6, 16) == "de0b6"
  {
    assert Digits(0xd, 16) == "d";
    assert Digits(0xde, 16) == "de";
    assert Digits(0xde0, 16) == "de0";
    assert Digits(0xde0b, 16) == "de0b";
    assert Digits(0xde0b6, 16) == "de0b6";
  }

  lemma OneEtherDigitsMiddle()
    ensures Digits(0xde0b6b3a76, 16) == "de0b6b3a76"
  {
    OneEtherDigitsHigh();
    assert Digits(0xde0b6b, 16) == "de0b6b";
    assert Digits(0xde0b6b3, 16) == "de0b6b3";
    assert Digits(0xde0b6b3a, 16) == "de0b6b3a";
    assert Digits(0xde0b6b3a7, 16) == "de0b6b3a7";
    assert Digits(0xde0b6b3a76, 16) == "de0b6b3a76";
  }

  lemma OneEtherDigitsLow()
    ensures Digits(0xde0b6b3a7640000, 16) == "de0b6b3a7640000"
  {
    OneEtherDigitsMiddle();
    assert Digits(0xde0b6b3a764, 16) == "de0b6b3a764";
    assert Digits(0xde0b6b3a7640, 16) == "de0b6b3a7640";
    assert Digits(0xde0b6b3a76400, 16) == "de0b6b3a76400";
    assert Digits(0xde0b6b3a764000, 16) == "de0b6b3a764000";
    assert Digits(0xde0b6b3a7640000, 16) == "de0b6b3a7640000";
  }

  /** The wei amount of one ether, as the provider spells it in hexadecimal. */
  lemma OneEtherInHex()
    ensures ParseInt("0xde0b6b3a7640000", 16) == Some(1000000000000000000)
  {
    OneEtherDigitsLow();
    assert 0xde0b6b3a7640000 == 1000000000000000000;
    assert FormatInt(1000000000000000000, 16) == "0xde0b6b3a7640000";
    ParseFormat(1000000000000000000, 16);
  }

  /** `int("0x", 16)` raises: the prefix alone has no digits. */
  lemma BarePrefixRejected()
    ensures ParseInt("0x", 16) == None
    ensures ParseInt("", 10) == None
  {
  }

  /** A sign may precede the prefix, which may be upper-case, and the digits
      may be upper-case too. */
  lemma SignedPrefixExamples()
    ensures ParseInt("-0X1A", 16) == Some(-26)
    ensures ParseInt("+0x1a", 16) == Some(26)
    ensures ParseInt("-5", 10) == Some(-5)
  {
    assert Magnitude("-0X1A", 16) == "1A";
    assert Magnitude("+0x1a", 16) == "1a";
    assert Magnitude("-5", 10) == "5";
  }
}

=== FILE: json.dfy ===
/** Decoded JSON as the service's Python code sees it, and the handful of
    Python operations the handlers apply to it. Each operation reports
    `Raised` where Python raises (`KeyError`, `IndexError`, `TypeError`,
    `AttributeError`, `ValueError`), apart from the `int` spellings that
    `IntText` leaves out. */
module JsonValues {
  import opened Wrappers
  import opened Strings
  import opened IntText

  /** A decoded JSON value. Numbers with a fraction or exponent are not
      modelled: the provider sends every quantity as a string. */
  datatype Json =
    | JNull
    | JBool(b: bool)
    | JInt(i: int)
    | JStr(s: string)
    | JList(items: seq<Json>)
    | JObj(fields: map<string, Json>)

  /** Python's `bool(j)`: `None`, `False`, `0` and empty containers are false. */
  function Truthy(j: Json): (truthy: bool)
    ensures !truthy <==>
      j in {JNull, JBool(false), JInt(0), JStr(""), JList([]), JObj(map[])}
  {
    match j
    case JNull => false
    case JBool(b) => b
    case JInt(i) => i != 0
    case JStr(s) => s != ""
    case JList(items) => items != []
    case JObj(fields) => fields != map[]
  }

  /** `j.get(key, default)`; only objects have `.get`. */
  function Get(j: Json, key: string, default: Json): Outcome<Json> {
    match j
    case JObj(fields) => Ok(if key in fields then fields[key] else default)
    case _ => Raised
  }

  /** The value `j.get(key, default)` gives when `j` is an object. */
  function Field(fields: map<string, Json>, key: string, default: Json): Json {
    if key in fields then fields[key] else default
  }

  /** `j[key]` with a string key: a missing key or a non-object raises. */
  function Item(j: Json, key: string): Outcome<Json> {
    match j
    case JObj(fields) => if key in fields then Ok(fields[key]) else Raised
    case _ => Raised
  }

  /** `j[0]`: the first element of a list or the first character of a string;
      an object has no key `0` (JSON keys are strings). */
  function First(j: Json): (r: Outcome<Json>)
    ensures r.Ok? <==> (j.JList? && j.items != []) || (j.JStr? && j.s != "")
    ensures r.Ok? && j.JList? ==> r.value == j.items[0]
    ensures r.Ok? && j.JStr? ==> r.value == JStr([j.s[0]])
  {
    match j
    case JList(items) => if items == [] then Raised else Ok(items[0])
    case JStr(s) => if s == "" then Raised else assert s[..1] == [s[0]]; Ok(JStr(s[..1]))
    case _ => Raised
  }

  /** `int(j)`. */
  function ToInt(j: Json): (r: Outcome<int>)
    ensures j.JStr? ==> (r.Ok? <==> ParseInt(j.s, 10).Some?) && (r.Ok? ==> Some(r.value) == ParseInt(j.s, 10))
    ensures j.JInt? ==> r == Ok(j.i)
    ensures j.JBool? ==> r == Ok(if j.b then 1 else 0)
    ensures j.JNull? || j.JList? || j.JObj? ==> r.Raised?
  {
    match j
    case JInt(i) => Ok(i)
    case JBool(b) => Ok(if b then 1 else 0)
    case JStr(s) => (match ParseInt(s, 10) case Some(v) => Ok(v) case None => Raised)
    case _ => Raised
  }

  /** `int(j, 16)`: only text can be parsed with an explicit base. */
  function HexToInt(j: Json): (r: Outcome<int>)
    ensures r.Ok? <==> j.JStr? && ParseInt(j.s, 16).Some?
    ensures r.Ok? ==> Some(r.value) == ParseInt(j.s, 16)
  {
    match j
    case JStr(s) => (match ParseInt(s, 16) case Some(v) => Ok(v) case None => Raised)
    case _ => Raised
  }

  /** `j.lower()`: only text has it. */
  function LowerText(j: Json): Outcome<string> {
    match j
    case JStr(s) => Ok(Lower(s))
    case _ => Raised
  }

  /** The items a `for` loop over `j` visits, for a loop whose body calls
      `.get` on each item. Iterating a string visits its characters and
      iterating an object visits its keys; both are strings, which have no
      `.get`, so a non-empty string or object raises in the loop body and
      the model raises for it at once. */
  function Iterate(j: Json): (r: Outcome<seq<Json>>)
    ensures r.Ok? <==> j.JList? || j == JStr("") || j == JObj(map[])
    ensures r.Ok? ==> r.value == if j.JList? then j.items else []
  {
    match j
    case JList(items) => Ok(items)
    case JStr(s) => if s == "" then Ok([]) else Raised
    case JObj(fields) => if fields == map[] then Ok([]) else Raised
    case _ => Raised
  }

  /** `len(j)` for the values that have a length. */
  function Length(j: Json): Outcome<nat> {
    match j
    case JStr(s) => Ok(|s|)
    case JList(items) => Ok(|items|)
    case JObj(fields) => Ok(|fields|)
    case _ => Raised
  }
}

=== FILE: service.dfy ===
/** The HTTP surface of the service: the response shapes of the three
    endpoints and the health check. Every amount of wei or gas is kept as the
    integer the source computes before it converts to ether or gwei. */
module Service {
  import opened Wrappers
  import opened JsonValues
  import opened Upstream

  const OK := 200
  const BAD_REQUEST := 400
  const NOT_FOUND := 404
  /** What Flask answers when a handler raises. */
  const INTERNAL_ERROR := 500

  /** One recent transaction of a wallet. The fields the source copies from
      the provider are kept as the JSON they were (`JNull` when absent). */
  datatype TxRow = TxRow(
    hash: Json,
    sender: Json,
    recipient: Json,
    valueWei: int,
    block: Json,
    timestamp: Json,
    isOutgoing: bool)

  datatype WalletSummary = WalletSummary(
    ethBalanceWei: Option<int>,
    isContract: bool,
    transactions: seq<TxRow>,
    tokenBalancesWei: map<string, int>)

  datatype TxStatus = Success | Failed

  datatype TxSummary = TxSummary(
    hash: Json,
    sender: Json,
    recipient: Json,
    valueWei: int,
    block: Option<int>,
    gasLimit: int,
    gasPriceWei: int,
    inputData: Json,
    methodId: Option<Json>,
    status: Option<TxStatus>,
    gasUsed: Option<int>,
    gasCostWei: Option<int>)

  datatype Body =
    | Health(state: string, message: string, apiKeyLoaded: bool)
    | ErrorMessage(error: string)
    | WalletBody(wallet: WalletSummary)
    | TransactionBody(transaction: TxSummary)
    | InternalError

  /** A handler's answer: the HTTP status, the body, and the requests it sent
      upstream, in the order it sent them. */
  datatype Reply = Reply(status: nat, body: Body, calls: seq<Call>)

  const HEALTH_MESSAGE := "Ethereum Explorer API is running"

  /** `GET /`: always 200, no upstream request, and it reports whether an API
      key is configured. */
  function HealthCheck(cfg: Config): (r: Reply)
    ensures r.status == OK && r.calls == []
    ensures r.body.Health? && r.body.state == "ok"
    ensures r.body.apiKeyLoaded <==> KeyConfigured(cfg)
  {
    Reply(OK, Health("ok", HEALTH_MESSAGE, KeyConfigured(cfg)), [])
  }
}

=== FILE: strings.dfy ===
/** The few string operations the service uses: `str.startswith` and
    `str.lower`, the latter on ASCII letters only. */
module Strings {

  predicate StartsWith(s: string, prefix: string) {
    |prefix| <= |s| && s[..|prefix|] == prefix
  }

  predicate IsUpperAscii(c: char) {
    'A' <= c <= 'Z'
  }

  predicate IsLowerAscii(c: char) {
    'a' <= c <= 'z'
  }

  function LowerChar(c: char): char {
    if IsUpperAscii(c) then (c as int + 32) as char else c
  }

  function UpperChar(c: char): char {
    if IsLowerAscii(c) then (c as int - 32) as char else c
  }

  /** `s.lower()` restricted to ASCII: every upper-case letter is replaced by
      its lower-case letter, everything else is kept. */
  function Lower(s: string): (t: string)
    ensures |t| == |s|
    ensures forall i :: 0 <= i < |s| ==> t[i] == LowerChar(s[i])
  {
    seq(|s|, i requires 0 <= i < |s| => LowerChar(s[i]))
  }

  function Upper(s: string): (t: string)
    ensures |t| == |s|
    ensures forall i :: 0 <= i < |s| ==> t[i] == UpperChar(s[i])
  {
    seq(|s|, i requires 0 <= i < |s| => UpperChar(s[i]))
  }

  /** `a.lower() == b.lower()`. */
  predicate EqualIgnoringCase(a: string, b: string) {
    Lower(a) == Lower(b)
  }

  /** Lower-casing leaves no upper-case letter behind and changes nothing else. */
  lemma LowerChangesOnlyLetters(s: string)
    ensures forall i :: 0 <= i < |s| ==> !IsUpperAscii(Lower(s)[i])
    ensures forall i :: 0 <= i < |s| && !IsUpperAscii(s[i]) ==> Lower(s)[i] == s[i]
  {
  }

  /** Two strings compare equal ignoring case exactly when they have the same
      length and agree letter by letter up to case. */
  lemma EqualIgnoringCaseCharwise(a: string, b: string)
    ensures EqualIgnoringCase(a, b) <==>
      |a| == |b| && forall i :: 0 <= i < |a| ==> LowerChar(a[i]) == LowerChar(b[i])
  {
    if |a| == |b| && forall i :: 0 <= i < |a| ==> LowerChar(a[i]) == LowerChar(b[i]) {
      assert forall i :: 0 <= i < |a| ==> Lower(a)[i] == Lower(b)[i];
    }
  }

  /** The upper-cased spelling of a string still equals it ignoring case: the
      comparison that decides whether a transaction is outgoing does not care
      how the queried address is capitalised. */
  lemma UpperEqualIgnoringCase(s: string)
    ensures EqualIgnoringCase(Upper(s), s)
  {
    forall i | 0 <= i < |s|
      ensures LowerChar(Upper(s)[i]) == LowerChar(s[i])
    {
    }
    EqualIgnoringCaseCharwise(Upper(s), s);
  }
}

=== FILE: transaction.dfy ===
/** `GET /api/transaction/<tx_hash>`: the transaction and, best effort, its
    receipt, fetched by at most two sequential upstream requests. */
module Transaction {
  import opened Wrappers
  import opened Strings
  import opened IntText
  import opened JsonValues
  import opened Upstream
  import opened Service

  const INVALID_HASH := "Invalid transaction hash. Must be 66 characters starting with 0x."
  const NOT_FOUND_MESSAGE := "Transaction not found."
  /** The recipient shown for a transaction without one. */
  const CONTRACT_CREATION := "Contract Creation"

  /** The only check on a hash: the `0x` prefix and 66 characters in all. */
  function ValidHash(txHash: string): (valid: bool)
    ensures valid <==> |txHash| == 66 && txHash[0] == '0' && txHash[1] == 'x'
  {
    StartsWith(txHash, "0x") && |txHash| == 66
  }

  function ByHashQuery(txHash: string): Params {
    map["module" := "proxy", "action" := "eth_getTransactionByHash", "txhash" := txHash]
  }

  function ReceiptQuery(txHash: string): Params {
    map["module" := "proxy", "action" := "eth_getTransactionReceipt", "txhash" := txHash]
  }

  /** Reads the by-hash reply: `Ok(None)` when `not data or not
      data.get("result")` (not found), else the transaction it carries. */
  function Found(data: Option<Json>): (r: Outcome<Option<Json>>)
    ensures r == Ok(None) <==>
      data.None? || !Truthy(data.value)
      || (data.value.JObj? && !Truthy(Field(data.value.fields, "result", JNull)))
    ensures r.Raised? <==> data.Some? && Truthy(data.value) && !data.value.JObj?
    ensures r.Ok? && r.value.Some? ==>
      && data.Some? && data.value.JObj? && "result" in data.value.fields
      && data.value.fields["result"] == r.value.value && Truthy(r.value.value)
  {
    match data
    case None => Ok(None)
    case Some(j) =>
      if !Truthy(j) then Ok(None)
      else
        var result :- Get(j, "result", JNull);
        Ok(if Truthy(result) then Some(result) else None)
  }

  /** Reads the receipt reply: `data.get("result") if data else None`. */
  function ReceiptOf(data: Option<Json>): (r: Outcome<Json>)
    ensures r.Raised? <==> data.Some? && Truthy(data.value) && !data.value.JObj?
    ensures data.None? || !Truthy(data.value) ==> r == Ok(JNull)
    ensures data.Some? && Truthy(data.value) && data.value.JObj? ==>
      r == Ok(Field(data.value.fields, "result", JNull))
    ensures r.Ok? && Truthy(r.value) ==>
      && data.Some? && data.value.JObj? && "result" in data.value.fields
      && data.value.fields["result"] == r.value
  {
    match data
    case None => Ok(JNull)
    case Some(j) => if !Truthy(j) then Ok(JNull) else Get(j, "result", JNull)
  }

  /** `tx.get(key)` is truthy. */
  predicate Present(fields: map<string, Json>, key: string) {
    key in fields && Truthy(fields[key])
  }

  /** `tx.get("to") or "Contract Creation"`. */
  function Recipient(fields: map<string, Json>): (to: Json)
    ensures ("to" !in fields || fields["to"] == JNull || fields["to"] == JStr("")) ==>
      to == JStr(CONTRACT_CREATION)
    ensures "to" in fields && fields["to"].JStr? && fields["to"].s != "" ==> to == fields["to"]
    ensures to == JStr(CONTRACT_CREATION) || ("to" in fields && to == fields["to"])
  {
    var to := Field(fields, "to", JNull);
    if Truthy(to) then to else JStr(CONTRACT_CREATION)
  }

  /** `int(tx.get("blockNumber", "0x0"), 16) if tx.get("blockNumber") else
      None`: a pending transaction has no block. */
  function BlockNumber(fields: map<string, Json>): (r: Outcome<Option<int>>)
    ensures !Present(fields, "blockNumber") ==> r == Ok(None)
    ensures Present(fields, "blockNumber") ==>
      (r.Raised? <==> HexToInt(fields["blockNumber"]).Raised?)
    ensures r.Ok? && r.value.Some? ==>
      Present(fields, "blockNumber") && HexToInt(fields["blockNumber"]) == Ok(r.value.value)
    ensures Present(fields, "blockNumber") && HexToInt(fields["blockNumber"]).Ok? ==>
      r == Ok(Some(HexToInt(fields["blockNumber"]).value))
  {
    if !Present(fields, "blockNumber") then Ok(None)
    else
      var block :- HexToInt(fields["blockNumber"]);
      Ok(Some(block))
  }

  /** The method selector: `input[:10] if len(input) > 10 else None`, so the
      `0x` prefix and the first four bytes. */
  function MethodId(input: Json): (r: Outcome<Option<Json>>)
    ensures input.JStr? ==>
      && r.Ok?
      && (r.value.Some? <==> |input.s| > 10)
      && (r.value.Some? ==> r.value.value == JStr(input.s[..10]))
    ensures r.Ok? && r.value.Some? ==> Length(input).Ok? && Length(input).value > 10
    ensures r.Raised? <==>
      !(input.JStr? || input.JList? || input.JObj?) || (input.JObj? && |input.fields| > 10)
  {
    var n :- Length(input);
    if n <= 10 then Ok(None)
    else
      match input
      case JStr(s) => Ok(Some(JStr(s[..10])))
      case JList(items) => Ok(Some(JList(items[..10])))
      case _ => Raised
  }

  /** The receipt-derived part of the summary. */
  datatype ReceiptPart = ReceiptPart(status: Option<TxStatus>, gasUsed: Option<int>, gasCostWei: Option<int>)

  /** A receipt whose fields cannot be read: a truthy value that is not an
      object, or a `gasUsed` that is not hexadecimal text. */
  predicate ReceiptUnreadable(receipt: Json) {
    Truthy(receipt) && (!receipt.JObj? || HexToInt(Field(receipt.fields, "gasUsed", JStr("0x0"))).Raised?)
  }

  /** Without a receipt all three fields stay null; with one, the status is
      success exactly for `"0x1"` and the cost is gas used times gas price. */
  function ReceiptFields(receipt: Json, gasPriceWei: int): (r: Outcome<ReceiptPart>)
    ensures !Truthy(receipt) ==> r == Ok(ReceiptPart(None, None, None))
    ensures Truthy(receipt) && r.Ok? ==>
      && receipt.JObj?
      && r.value.status.Some? && r.value.gasUsed.Some?
      && r.value.gasCostWei == Some(r.value.gasUsed.value * gasPriceWei)
      && (r.value.status == Some(Success) <==>
            "status" in receipt.fields && receipt.fields["status"] == JStr("0x1"))
      && HexToInt(Field(receipt.fields, "gasUsed", JStr("0x0"))) == Ok(r.value.gasUsed.value)
    ensures r.Raised? <==> ReceiptUnreadable(receipt)
  {
    if !Truthy(receipt) then Ok(ReceiptPart(None, None, None))
    else
      match receipt
      case JObj(fields) =>
        var gasUsed :- HexToInt(Field(fields, "gasUsed", JStr("0x0")));
        var status := if Field(fields, "status", JNull) == JStr("0x1") then Success else Failed;
        Ok(ReceiptPart(Some(status), Some(gasUsed), Some(gasUsed * gasPriceWei)))
      case _ => Raised
  }

  /** The summary built from the transaction object and the receipt. */
  function Summarize(tx: Json, receipt: Json): (r: Outcome<TxSummary>)
    ensures r.Ok? ==> tx.JObj?
    ensures r.Ok? ==>
      var fields := tx.fields;
      var t := r.value;
      && t.hash == Field(fields, "hash", JNull)
      && t.sender == Field(fields, "from", JNull)
      && t.recipient == Recipient(fields)
      && HexToInt(Field(fields, "value", JStr("0x0"))) == Ok(t.valueWei)
      && HexToInt(Field(fields, "gas", JStr("0x0"))) == Ok(t.gasLimit)
      && HexToInt(Field(fields, "gasPrice", JStr("0x0"))) == Ok(t.gasPriceWei)
      && BlockNumber(fields) == Ok(t.block)
      && t.inputData == Field(fields, "input", JStr("0x"))
      && MethodId(t.inputData) == Ok(t.methodId)
      && ReceiptFields(receipt, t.gasPriceWei) == Ok(ReceiptPart(t.status, t.gasUsed, t.gasCostWei))
    ensures tx.JObj? ==>
      (r.Raised? <==>
        || HexToInt(Field(tx.fields, "value", JStr("0x0"))).Raised?
        || HexToInt(Field(tx.fields, "gas", JStr("0x0"))).Raised?
        || HexToInt(Field(tx.fields, "gasPrice", JStr("0x0"))).Raised?
        || BlockNumber(tx.fields).Raised?
        || MethodId(Field(tx.fields, "input", JStr("0x"))).Raised?
        || ReceiptUnreadable(receipt))
  {
    match tx
    case JObj(fields) =>
      var valueWei :- HexToInt(Field(fields, "value", JStr("0x0")));
      var gasLimit :- HexToInt(Field(fields, "gas", JStr("0x0")));
      var gasPrice :- HexToInt(Field(fields, "gasPrice", JStr("0x0")));
      var block :- BlockNumber(fields);
      var input := Field(fields, "input", JStr("0x"));
      var methodId :- MethodId(input);
      var receiptPart :- ReceiptFields(receipt, gasPrice);
      Ok(TxSummary(
        Field(fields, "hash", JNull), Field(fields, "from", JNull), Recipient(fields),
        valueWei, block, gasLimit, gasPrice, input, methodId,
        receiptPart.status, receiptPart.gasUsed, receiptPart.gasCostWei))
    case _ => Raised
  }

  /** The transaction lookup handler. */
  function TransactionLookup(cfg: Config, provider: Provider, txHash: string): (r: Reply)
    ensures r.status == OK || r.status == BAD_REQUEST || r.status == NOT_FOUND || r.status == INTERNAL_ERROR
    ensures r.status == BAD_REQUEST <==> !ValidHash(txHash)
    ensures !ValidHash(txHash) ==> r.calls == [] && r.body == ErrorMessage(INVALID_HASH)
    ensures ValidHash(txHash) ==> 1 <= |r.calls| <= 2 && r.calls[0] == Send(cfg, ByHashQuery(txHash))
    ensures |r.calls| == 2 ==> r.calls[1] == Send(cfg, ReceiptQuery(txHash))
    ensures r.status == NOT_FOUND <==>
      ValidHash(txHash) && Found(Fetch(cfg, provider, ByHashQuery(txHash))) == Ok(None)
    ensures r.status == NOT_FOUND ==> |r.calls| == 1 && r.body == ErrorMessage(NOT_FOUND_MESSAGE)
    ensures ValidHash(txHash) && Found(Fetch(cfg, provider, ByHashQuery(txHash))) == Ok(None) ==>
      |r.calls| == 1
    ensures var found := Found(Fetch(cfg, provider, ByHashQuery(txHash)));
      ValidHash(txHash) && found.Ok? && found.value.Some? ==> |r.calls| == 2
    ensures r.status == OK ==> r.body.TransactionBody? && |r.calls| == 2
    ensures var found := Found(Fetch(cfg, provider, ByHashQuery(txHash)));
      var receipt := ReceiptOf(Fetch(cfg, provider, ReceiptQuery(txHash)));
      r.status == OK <==>
        && ValidHash(txHash) && found.Ok? && found.value.Some? && receipt.Ok?
        && Summarize(found.value.value, receipt.value).Ok?
    ensures var found := Found(Fetch(cfg, provider, ByHashQuery(txHash)));
      var receipt := ReceiptOf(Fetch(cfg, provider, ReceiptQuery(txHash)));
      r.status == OK ==>
        && found.Ok? && found.value.Some? && receipt.Ok?
        && Summarize(found.value.value, receipt.value) == Ok(r.body.transaction)
    ensures r.status == INTERNAL_ERROR ==> r.body == InternalError
    ensures ValidHash(txHash) && Found(Fetch(cfg, provider, ByHashQuery(txHash))).Raised? ==>
      r.status == INTERNAL_ERROR && |r.calls| == 1
  {
    if !ValidHash(txHash) then Reply(BAD_REQUEST, ErrorMessage(INVALID_HASH), [])
    else
      var byHash := Send(cfg, ByHashQuery(txHash));
      match Found(provider(byHash.params))
      case Raised => Reply(INTERNAL_ERROR, InternalError, [byHash])
      case Ok(None) => Reply(NOT_FOUND, ErrorMessage(NOT_FOUND_MESSAGE), [byHash])
      case Ok(Some(tx)) =>
        var receiptCall := Send(cfg, ReceiptQuery(txHash));
        var calls := [byHash, receiptCall];
        match ReceiptOf(provider(receiptCall.params))
        case Raised => Reply(INTERNAL_ERROR, InternalError, calls)
        case Ok(receipt) =>
          match Summarize(tx, receipt)
          case Raised => Reply(INTERNAL_ERROR, InternalError, calls)
          case Ok(summary) => Reply(OK, TransactionBody(summary), calls)
  }

  /** A 404 never reaches the receipt endpoint. */
  lemma NotFoundSkipsReceipt(cfg: Config, provider: Provider, txHash: string)
    requires TransactionLookup(cfg, provider, txHash).status == NOT_FOUND
    ensures forall c :: c in TransactionLookup(cfg, provider, txHash).calls ==>
      c.params["action"] == "eth_getTransactionByHash"
  {
    OutgoingKeeps(cfg, ByHashQuery(txHash), "action");
  }

  /** Receipt status `"0x1"` reads as success, `"0x0"` as failed, and no
      receipt leaves all three receipt fields null. */
  lemma ReceiptStatusExamples(gasPriceWei: int)
    ensures ReceiptFields(JObj(map["status" := JStr("0x1")]), gasPriceWei).value.status == Some(Success)
    ensures ReceiptFields(JObj(map["status" := JStr("0x0")]), gasPriceWei).value.status == Some(Failed)
    ensures ReceiptFields(JNull, gasPriceWei) == Ok(ReceiptPart(None, None, None))
  {
    assert ParseInt("0x0", 16) == Some(0) by {
      ParseFormat(0, 16);
      assert FormatInt(0, 16) == "0x0";
    }
    var succeeded := map["status" := JStr("0x1")];
    assert "gasUsed" !in succeeded && Field(succeeded, "status", JNull) == JStr("0x1");
    var failed := map["status" := JStr("0x0")];
    assert "gasUsed" !in failed && Field(failed, "status", JNull) == JStr("0x0");
  }

  /** A transfer of one ether, spelled in hexadecimal, reads as 10^18 wei. */
  lemma OneEtherTransfer(receipt: Json)
    requires !Truthy(receipt)
    ensures Summarize(JObj(map["value" := JStr("0xde0b6b3a7640000")]), receipt).Ok?
    ensures Summarize(JObj(map["value" := JStr("0xde0b6b3a7640000")]), receipt).value.valueWei
      == 1000000000000000000
  {
    var fields := map["value" := JStr("0xde0b6b3a7640000")];
    OneEtherInHex();
    assert HexToInt(JStr("0x0")) == Ok(0) by {
      ParseFormat(0, 16);
      assert FormatInt(0, 16) == "0x0";
    }
    assert HexToInt(Field(fields, "value", JStr("0x0"))) == Ok(1000000000000000000);
    assert "gas" !in fields && "gasPrice" !in fields && "blockNumber" !in fields && "input" !in fields;
    assert MethodId(JStr("0x")) == Ok(None);
  }
}

=== FILE: upstream.dfy ===
/** The upstream client (`make_api_call`): every request the service sends to
    the block-explorer provider goes through `Send`, which adds the chain id,
    the API key when one is configured, and the pacing delay. The HTTP request
    itself is the `Provider` function parameter. */
module Upstream {
  import opened Wrappers
  import opened JsonValues

  /** Query-string parameters. Integer parameters are written as the decimal
      text the HTTP library puts in the query string. */
  type Params = map<string, string>

  /** The decoded reply body, or `None` when the request failed: a transport
      error, a timeout, a non-2xx status or a body that is not JSON. */
  type Provider = Params -> Option<Json>

  /** Start-up configuration: the API key read from the environment. */
  datatype Config = Config(apiKey: Option<string>)

  /** The key counts only when it is set and non-empty (Python truthiness). */
  predicate KeyConfigured(cfg: Config) {
    cfg.apiKey.Some? && cfg.apiKey.value != ""
  }

  /** The single network the service queries (Ethereum mainnet). */
  const CHAIN_ID := "1"

  const KEYED_DELAY_MS := 200
  const UNKEYED_DELAY_MS := 5000

  /** The pause before every request: short with a key, long without. */
  function PacingDelayMs(cfg: Config): (ms: nat)
    ensures KeyConfigured(cfg) <==> ms == KEYED_DELAY_MS
    ensures !KeyConfigured(cfg) <==> ms == UNKEYED_DELAY_MS
  {
    if KeyConfigured(cfg) then KEYED_DELAY_MS else UNKEYED_DELAY_MS
  }

  /** The parameters actually sent for a caller's parameter map `p`. */
  function Outgoing(cfg: Config, p: Params): (q: Params)
    ensures q.Keys == p.Keys + {"chainid"} + (if KeyConfigured(cfg) then {"apikey"} else {})
    ensures q["chainid"] == CHAIN_ID
    ensures KeyConfigured(cfg) ==> q["apikey"] == cfg.apiKey.value
    ensures forall k :: k in p && k != "chainid" && k != "apikey" ==> q[k] == p[k]
    ensures !KeyConfigured(cfg) && "apikey" in p ==> q["apikey"] == p["apikey"]
  {
    var withChain := p["chainid" := CHAIN_ID];
    if KeyConfigured(cfg) then withChain["apikey" := cfg.apiKey.value] else withChain
  }

  lemma OutgoingKeeps(cfg: Config, p: Params, k: string)
    requires k in p && k != "chainid" && k != "apikey"
    ensures k in Outgoing(cfg, p) && Outgoing(cfg, p)[k] == p[k]
  {
  }

  /** One request as the service issues it: the pause taken before it and the
      parameters it carries. */
  datatype Call = Call(params: Params, delayMs: nat)

  /** What `make_api_call(p)` returns: the provider's reply to the
      parameters as sent, `None` for every failure. */
  function Fetch(cfg: Config, provider: Provider, p: Params): Option<Json> {
    provider(Outgoing(cfg, p))
  }

  function Send(cfg: Config, p: Params): Call {
    Call(Outgoing(cfg, p), PacingDelayMs(cfg))
  }

  /** The requests for a sequence of caller parameter maps, in order. */
  function Sends(cfg: Config, ps: seq<Params>): (cs: seq<Call>)
    ensures |cs| == |ps|
    ensures forall i :: 0 <= i < |ps| ==> cs[i] == Send(cfg, ps[i])
  {
    seq(|ps|, i requires 0 <= i < |ps| => Send(cfg, ps[i]))
  }

  lemma SendsPrefix(cfg: Config, ps: seq<Params>, k: nat)
    requires k <= |ps|
    ensures Sends(cfg, ps)[..k] == Sends(cfg, ps[..k])
  {
  }

  /** Every request of a log carries the chain id, carries the key exactly
      when one is configured (for caller maps without an `apikey` of their
      own), keeps every other entry of its caller's map, and waits the
      configured pause. */
  lemma SendsInjectParameters(cfg: Config, ps: seq<Params>)
    ensures forall i :: 0 <= i < |ps| ==>
      var q := Sends(cfg, ps)[i].params;
      && q["chainid"] == CHAIN_ID
      && ("apikey" !in ps[i] ==> ("apikey" in q <==> KeyConfigured(cfg)))
      && (forall k :: k in ps[i] && k != "chainid" && k != "apikey" ==> k in q && q[k] == ps[i][k])
      && Sends(cfg, ps)[i].delayMs == PacingDelayMs(cfg)
  {
  }
}

=== FILE: wallet.dfy ===
/** `GET /api/wallet/<address>`: the ether balance, the contract flag, the
    ten most recent transactions and the balances of a fixed list of ERC-20
    tokens, gathered by up to 3 + |COMMON_TOKENS| sequential upstream requests. */
module Wallet {
  import opened Wrappers
  import opened Strings
  import opened JsonValues
  import opened Upstream
  import opened Service

  datatype Token = Token(symbol: string, contract: string)

  /** The token registry, in definition order. */
  const COMMON_TOKENS: seq<Token> := [
    Token("USDC", "0xA0b86991c6218b36c1d19D4a2e9Eb0cE3606eB48"),
    Token("DAI", "0x6B175474E89094C44Da98b954EedeAC495271d0F"),
    Token("WETH", "0xC02aaA39b223FE8D0A0e5C4F27eAD9083C756Cc2"),
    Token("UNI", "0x1f9840a85d5aF5bf1D1762F925BDADdC4201F984")
  ]

  function Symbols(tokens: seq<Token>): set<string> {
    set i | 0 <= i < |tokens| :: tokens[i].symbol
  }

  predicate DistinctSymbols(tokens: seq<Token>) {
    forall i, j :: 0 <= i < j < |tokens| ==> tokens[i].symbol != tokens[j].symbol
  }

  lemma CommonTokensDistinct()
    ensures DistinctSymbols(COMMON_TOKENS)
  {
  }

  const INVALID_ADDRESS := "Invalid address format. Must be 42 characters starting with 0x."

  /** The only check on an address: the `0x` prefix and 42 characters in all.
      The other 40 characters are not checked to be hexadecimal. */
  function ValidAddress(address: string): (valid: bool)
    ensures valid <==> |address| == 42 && address[0] == '0' && address[1] == 'x'
  {
    StartsWith(address, "0x") && |address| == 42
  }

  function BalanceQuery(address: string): Params {
    map["module" := "account", "action" := "balance", "address" := address, "tag" := "latest"]
  }

  function SourceCodeQuery(address: string): Params {
    map["module" := "contract", "action" := "getsourcecode", "address" := address]
  }

  function TxListQuery(address: string): Params {
    map["module" := "account", "action" := "txlist", "address" := address,
        "sort" := "desc", "page" := "1", "offset" := "10"]
  }

  function TokenBalanceQuery(token: Token, address: string): Params {
    map["module" := "account", "action" := "tokenbalance", "contractaddress" := token.contract,
        "address" := address, "tag" := "latest"]
  }

  function TokenPlan(tokens: seq<Token>, address: string): (ps: seq<Params>)
    ensures |ps| == |tokens|
    ensures forall i :: 0 <= i < |tokens| ==> ps[i] == TokenBalanceQuery(tokens[i], address)
  {
    seq(|tokens|, i requires 0 <= i < |tokens| => TokenBalanceQuery(tokens[i], address))
  }

  /** The caller parameter maps of a full wallet lookup, in the order sent. */
  function WalletPlan(address: string): (ps: seq<Params>)
    ensures |ps| == 3 + |COMMON_TOKENS|
    ensures ps[0] == BalanceQuery(address) && ps[1] == SourceCodeQuery(address) && ps[2] == TxListQuery(address)
    ensures forall i :: 0 <= i < |COMMON_TOKENS| ==> ps[3 + i] == TokenBalanceQuery(COMMON_TOKENS[i], address)
  {
    [BalanceQuery(address), SourceCodeQuery(address), TxListQuery(address)]
      + TokenPlan(COMMON_TOKENS, address)
  }

  /** `data and data.get("status") == "1"`. */
  function Succeeded(data: Option<Json>): (r: Outcome<bool>)
    ensures r == Ok(true) <==>
      data.Some? && data.value.JObj? && "status" in data.value.fields
      && data.value.fields["status"] == JStr("1")
    ensures r.Raised? <==> data.Some? && Truthy(data.value) && !data.value.JObj?
  {
    match data
    case None => Ok(false)
    case Some(j) =>
      if !Truthy(j) then Ok(false)
      else
        var status :- Get(j, "status", JNull);
        Ok(status == JStr("1"))
  }

  /** `int(data["result"])` of a reply that succeeded with status "1": the
      integer it reports, or `None` when it did not succeed. */
  function ReportedInt(data: Option<Json>): (r: Outcome<Option<int>>)
    ensures Succeeded(data).Raised? ==> r.Raised?
    ensures Succeeded(data) == Ok(false) ==> r == Ok(None)
    ensures Succeeded(data) == Ok(true) && r.Ok? ==> r.value.Some?
    ensures Succeeded(data) == Ok(true) ==>
      (r.Raised? <==> "result" !in data.value.fields || ToInt(data.value.fields["result"]).Raised?)
    ensures r.Ok? && r.value.Some? ==>
      Succeeded(data) == Ok(true) && "result" in data.value.fields
      && ToInt(data.value.fields["result"]) == Ok(r.value.value)
  {
    var ok :- Succeeded(data);
    if !ok then Ok(None)
    else
      var result :- Item(data.value, "result");
      var v :- ToInt(result);
      Ok(Some(v))
  }

  /** The first entry of a getsourcecode reply carries non-empty source code. */
  predicate HasSourceCode(j: Json) {
    && j.JObj? && "result" in j.fields
    && j.fields["result"].JList? && j.fields["result"].items != []
    && j.fields["result"].items[0].JObj?
    && "SourceCode" in j.fields["result"].items[0].fields
    && Truthy(j.fields["result"].items[0].fields["SourceCode"])
  }

  /** The contract flag read off a getsourcecode reply. */
  function IsContract(data: Option<Json>): (r: Outcome<bool>)
    ensures r == Ok(true) <==> Succeeded(data) == Ok(true) && HasSourceCode(data.value)
    ensures Succeeded(data) == Ok(false) ==> r == Ok(false)
    ensures Succeeded(data).Raised? ==> r.Raised?
    ensures Succeeded(data) == Ok(true) ==>
      (r.Raised? <==>
        || "result" !in data.value.fields
        || First(data.value.fields["result"]).Raised?
        || !First(data.value.fields["result"]).value.JObj?)
  {
    var ok :- Succeeded(data);
    if !ok then Ok(false)
    else
      var result :- Item(data.value, "result");
      var first :- First(result);
      var source :- Get(first, "SourceCode", JNull);
      Ok(Truthy(source))
  }

  /** A plain account's getsourcecode reply, whose first entry has empty
      source code, reads as not a contract rather than raising. */
  lemma PlainAccountIsNotContract()
    ensures IsContract(Some(JObj(map[
      "status" := JStr("1"),
      "result" := JList([JObj(map["SourceCode" := JStr("")])])]))) == Ok(false)
  {
    var reply := JObj(map["status" := JStr("1"), "result" := JList([JObj(map["SourceCode" := JStr("")])])]);
    assert Succeeded(Some(reply)) == Ok(true);
    assert !HasSourceCode(reply);
  }

  /** The sender text `tx.get("from", "")` of a row whose sender is text. */
  function SenderText(fields: map<string, Json>): string {
    if "from" in fields && fields["from"].JStr? then fields["from"].s else ""
  }

  /** One entry of the txlist reply as the response shows it. */
  function Row(tx: Json, address: string): (r: Outcome<TxRow>)
    ensures r.Ok? ==> tx.JObj?
    ensures tx.JObj? ==>
      (r.Raised? <==>
        ToInt(Field(tx.fields, "value", JStr("0"))).Raised?
        || ("from" in tx.fields && !tx.fields["from"].JStr?))
    ensures r.Ok? ==>
      && r.value.hash == Field(tx.fields, "hash", JNull)
      && r.value.sender == Field(tx.fields, "from", JNull)
      && r.value.recipient == Field(tx.fields, "to", JNull)
      && r.value.block == Field(tx.fields, "blockNumber", JNull)
      && r.value.timestamp == Field(tx.fields, "timeStamp", JNull)
      && ToInt(Field(tx.fields, "value", JStr("0"))) == Ok(r.value.valueWei)
    ensures r.Ok? ==> (r.value.isOutgoing <==> EqualIgnoringCase(SenderText(tx.fields), address))
  {
    match tx
    case JObj(fields) =>
      var valueWei :- ToInt(Field(fields, "value", JStr("0")));
      var senderLower :- LowerText(Field(fields, "from", JStr("")));
      Ok(TxRow(
        Field(fields, "hash", JNull),
        Field(fields, "from", JNull),
        Field(fields, "to", JNull),
        valueWei,
        Field(fields, "blockNumber", JNull),
        Field(fields, "timeStamp", JNull),
        senderLower == Lower(address)))
    case _ => Raised
  }

  /** The loop over the txlist entries: one row per entry, in the provider's
      order, unless some entry raises. */
  function Rows(items: seq<Json>, address: string): (r: Outcome<seq<TxRow>>)
    ensures r.Ok? <==> forall i :: 0 <= i < |items| ==> Row(items[i], address).Ok?
    ensures r.Ok? ==> |r.value| == |items|
    ensures r.Ok? ==> forall i :: 0 <= i < |items| ==> r.value[i] == Row(items[i], address).value
    decreases |items|
  {
    if items == [] then Ok([])
    else
      var first :- Row(items[0], address);
      var rest :- Rows(items[1..], address);
      Ok([first] + rest)
  }

  /** The transaction list read off a txlist reply: empty unless the reply
      succeeded with status "1". */
  function Transactions(data: Option<Json>, address: string): (r: Outcome<seq<TxRow>>)
    ensures Succeeded(data) == Ok(false) ==> r == Ok([])
    ensures Succeeded(data).Raised? ==> r.Raised?
    ensures Succeeded(data) == Ok(true) ==>
      if "result" in data.value.fields && Iterate(data.value.fields["result"]).Ok?
      then r == Rows(Iterate(data.value.fields["result"]).value, address)
      else r.Raised?
  {
    var ok :- Succeeded(data);
    if !ok then Ok([])
    else
      var result :- Item(data.value, "result");
      var items :- Iterate(result);
      Rows(items, address)
  }

  /** How the balance reply for each registry entry reads, in registry
      order. */
  function TokenReadings(cfg: Config, provider: Provider, address: string): (rs: seq<Outcome<Option<int>>>)
    ensures |rs| == |COMMON_TOKENS|
  {
    seq(|COMMON_TOKENS|, i requires 0 <= i < |COMMON_TOKENS| =>
      ReportedInt(Fetch(cfg, provider, TokenBalanceQuery(COMMON_TOKENS[i], address))))
  }

  lemma TokenReadingsAt(cfg: Config, provider: Provider, address: string)
    ensures forall i :: 0 <= i < |COMMON_TOKENS| ==>
      TokenReadings(cfg, provider, address)[i]
        == ReportedInt(Fetch(cfg, provider, TokenBalanceQuery(COMMON_TOKENS[i], address)))
  {
  }

  /** The token-balance loop from `tokens[0]` on, entered with the balances
      `acc` kept so far; `readings[i]` is how the reply to the request for
      `tokens[i]` reads. It gives how many requests the loop sends before it
      finishes or raises, and the balances it ends with. A balance is kept
      only when positive. */
  function TokenLoop(tokens: seq<Token>, readings: seq<Outcome<Option<int>>>, acc: map<string, int>)
    : (r: (nat, Outcome<map<string, int>>))
    requires |readings| == |tokens|
    ensures r.0 <= |tokens|
    ensures r.1.Ok? <==> forall i :: 0 <= i < |tokens| ==> readings[i].Ok?
    ensures r.1.Ok? ==> r.0 == |tokens|
    decreases |tokens|
  {
    if tokens == [] then (0, Ok(acc))
    else
      match readings[0]
      case Raised => (1, Raised)
      case Ok(balance) =>
        var kept := if balance.Some? && balance.value > 0 then acc[tokens[0].symbol := balance.value] else acc;
        var rest := TokenLoop(tokens[1..], readings[1..], kept);
        assert forall i :: 1 <= i < |tokens| ==> readings[i] == readings[1..][i - 1];
        (1 + rest.0, rest.1)
  }

  /** A loop that raises stops right after the first reply that raises:
      every earlier reply was read, and no later request is sent. */
  lemma {:induction false} TokenLoopStopsAtFirstRaise(tokens: seq<Token>, readings: seq<Outcome<Option<int>>>,
                                                      acc: map<string, int>)
    requires |readings| == |tokens|
    requires TokenLoop(tokens, readings, acc).1.Raised?
    ensures var sent := TokenLoop(tokens, readings, acc).0;
      && 0 < sent
      && readings[sent - 1].Raised?
      && forall i :: 0 <= i < sent - 1 ==> readings[i].Ok?
    decreases |tokens|
  {
    if readings[0].Ok? {
      var balance := readings[0].value;
      var kept := if balance.Some? && balance.value > 0 then acc[tokens[0].symbol := balance.value] else acc;
      TokenLoopStopsAtFirstRaise(tokens[1..], readings[1..], kept);
      var sent := TokenLoop(tokens[1..], readings[1..], kept).0;
      assert readings[1..][sent - 1] == readings[sent];
      forall i | 1 <= i < sent
        ensures readings[i] == readings[1..][i - 1]
      {
      }
    }
  }

  /** The positive balance a reading reports, if any: the independent
      statement of which tokens the response lists. */
  function PositiveBalance(reading: Outcome<Option<int>>): Option<int> {
    match reading
    case Ok(Some(v)) => if v > 0 then Some(v) else None
    case _ => None
  }

  lemma SymbolsCons(tokens: seq<Token>)
    requires tokens != []
    ensures Symbols(tokens) == {tokens[0].symbol} + Symbols(tokens[1..])
  {
    var rest := tokens[1..];
    forall s | s in Symbols(tokens)
      ensures s in {tokens[0].symbol} + Symbols(rest)
    {
      var i :| 0 <= i < |tokens| && tokens[i].symbol == s;
      if i > 0 {
        assert rest[i - 1] == tokens[i];
      }
    }
    forall s | s in Symbols(rest)
      ensures s in Symbols(tokens)
    {
      var i :| 0 <= i < |rest| && rest[i].symbol == s;
      assert tokens[i + 1] == rest[i];
    }
  }

  lemma {:induction false} TokenLoopKeeps(tokens: seq<Token>, readings: seq<Outcome<Option<int>>>,
                                          acc: map<string, int>)
    requires |readings| == |tokens|
    requires DistinctSymbols(tokens)
    requires TokenLoop(tokens, readings, acc).1.Ok?
    ensures var m := TokenLoop(tokens, readings, acc).1.value;
      forall s :: s !in Symbols(tokens) ==> (s in m <==> s in acc) && (s in acc ==> m[s] == acc[s])
    ensures var m := TokenLoop(tokens, readings, acc).1.value;
      forall i :: 0 <= i < |tokens| ==>
        && (PositiveBalance(readings[i]).Some? ==>
              tokens[i].symbol in m && m[tokens[i].symbol] == PositiveBalance(readings[i]).value)
        && (PositiveBalance(readings[i]).None? ==> (tokens[i].symbol in m <==> tokens[i].symbol in acc))
        && (PositiveBalance(readings[i]).None? && tokens[i].symbol in acc ==>
              m[tokens[i].symbol] == acc[tokens[i].symbol])
    decreases |tokens|
  {
    if tokens != [] {
      var t := tokens[0];
      var balance := readings[0].value;
      var kept := if balance.Some? && balance.value > 0 then acc[t.symbol := balance.value] else acc;
      var rest := tokens[1..];
      assert DistinctSymbols(rest) by {
        forall i, j | 0 <= i < j < |rest|
          ensures rest[i].symbol != rest[j].symbol
        {
          assert rest[i] == tokens[i + 1] && rest[j] == tokens[j + 1];
        }
      }
      TokenLoopKeeps(rest, readings[1..], kept);
      SymbolsCons(tokens);
      forall i | 0 <= i < |rest|
        ensures rest[i].symbol != t.symbol
      {
        assert rest[i] == tokens[i + 1];
      }
      forall i | 1 <= i < |tokens|
        ensures tokens[i] == rest[i - 1] && readings[i] == readings[1..][i - 1]
      {
      }
    }
  }

  /** With distinct symbols and a fresh map, a symbol is listed exactly when
      its registry entry's reply reports a positive balance, and it is listed
      with that balance. */
  lemma TokenBalancesListPositive(tokens: seq<Token>, readings: seq<Outcome<Option<int>>>)
    requires |readings| == |tokens|
    requires DistinctSymbols(tokens)
    requires TokenLoop(tokens, readings, map[]).1.Ok?
    ensures var m := TokenLoop(tokens, readings, map[]).1.value;
      forall s :: s in m <==>
        exists i :: 0 <= i < |tokens| && tokens[i].symbol == s && PositiveBalance(readings[i]).Some?
    ensures var m := TokenLoop(tokens, readings, map[]).1.value;
      forall i :: 0 <= i < |tokens| && PositiveBalance(readings[i]).Some? ==>
        m[tokens[i].symbol] == PositiveBalance(readings[i]).value
  {
    TokenLoopKeeps(tokens, readings, map[]);
  }

  /** The handler after validation, from how each reply reads: the ether
      balance, the contract flag, the transaction list and the token balance
      readings, in the order the requests are sent. It gives how many
      requests are sent before the summary is built or a step raises, and
      the summary. */
  function Assemble(balance: Outcome<Option<int>>, isContract: Outcome<bool>,
                    transactions: Outcome<seq<TxRow>>, tokens: seq<Outcome<Option<int>>>)
    : (r: (nat, Outcome<WalletSummary>))
    requires |tokens| == |COMMON_TOKENS|
    ensures 0 < r.0 <= 3 + |COMMON_TOKENS|
    ensures balance.Raised? ==> r == (1, Raised)
    ensures balance.Ok? && isContract.Raised? ==> r == (2, Raised)
    ensures balance.Ok? && isContract.Ok? && transactions.Raised? ==> r == (3, Raised)
    ensures balance.Ok? && isContract.Ok? && transactions.Ok? ==>
      r.0 == 3 + TokenLoop(COMMON_TOKENS, tokens, map[]).0
    ensures r.1.Ok? <==>
      balance.Ok? && isContract.Ok? && transactions.Ok? && forall i :: 0 <= i < |tokens| ==> tokens[i].Ok?
    ensures r.1.Ok? ==>
      && r.0 == 3 + |COMMON_TOKENS|
      && r.1.value.ethBalanceWei == balance.value
      && r.1.value.isContract == isContract.value
      && r.1.value.transactions == transactions.value
      && r.1.value.tokenBalancesWei == TokenLoop(COMMON_TOKENS, tokens, map[]).1.value
  {
    match balance
    case Raised => (1, Raised)
    case Ok(ethBalance) =>
    match isContract
    case Raised => (2, Raised)
    case Ok(contract) =>
    match transactions
    case Raised => (3, Raised)
    case Ok(rows) =>
    var loop := TokenLoop(COMMON_TOKENS, tokens, map[]);
    match loop.1
    case Raised => (3 + loop.0, Raised)
    case Ok(balances) => (3 + loop.0, Ok(WalletSummary(ethBalance, contract, rows, balances)))
  }

  /** The wallet lookup handler. The steps read the replies in the order the
      requests are sent, and a step that raises ends the lookup. */
  function WalletLookup(cfg: Config, provider: Provider, address: string): (r: Reply)
    ensures r.status == BAD_REQUEST <==> !ValidAddress(address)
    ensures !ValidAddress(address) ==> r.calls == [] && r.body == ErrorMessage(INVALID_ADDRESS)
    ensures ValidAddress(address) ==> r.status == OK || r.status == INTERNAL_ERROR
    ensures ValidAddress(address) ==>
      0 < |r.calls| <= |WalletPlan(address)|
      && r.calls == Sends(cfg, WalletPlan(address)[..|r.calls|])
    ensures r.status == OK ==> r.calls == Sends(cfg, WalletPlan(address)) && r.body.WalletBody?
    ensures r.status == INTERNAL_ERROR ==> r.body == InternalError
    ensures ValidAddress(address) ==>
      |r.calls| == Assemble(
        ReportedInt(Fetch(cfg, provider, BalanceQuery(address))),
        IsContract(Fetch(cfg, provider, SourceCodeQuery(address))),
        Transactions(Fetch(cfg, provider, TxListQuery(address)), address),
        TokenReadings(cfg, provider, address)).0
  {
    if !ValidAddress(address) then Reply(BAD_REQUEST, ErrorMessage(INVALID_ADDRESS), [])
    else
      var plan := WalletPlan(address);
      var (sent, summary) := Assemble(
        ReportedInt(Fetch(cfg, provider, BalanceQuery(address))),
        IsContract(Fetch(cfg, provider, SourceCodeQuery(address))),
        Transactions(Fetch(cfg, provider, TxListQuery(address)), address),
        TokenReadings(cfg, provider, address));
      SendsPrefix(cfg, plan, sent);
      match summary
      case Raised => Reply(INTERNAL_ERROR, InternalError, Sends(cfg, plan)[..sent])
      case Ok(wallet) => Reply(OK, WalletBody(wallet), Sends(cfg, plan))
  }

  /** A valid address gets a 200 exactly when none of the replies to its
      requests makes a step raise. */
  lemma WalletLookupSucceeds(cfg: Config, provider: Provider, address: string)
    ensures WalletLookup(cfg, provider, address).status == OK <==>
      && ValidAddress(address)
      && ReportedInt(Fetch(cfg, provider, BalanceQuery(address))).Ok?
      && IsContract(Fetch(cfg, provider, SourceCodeQuery(address))).Ok?
      && Transactions(Fetch(cfg, provider, TxListQuery(address)), address).Ok?
      && forall i :: 0 <= i < |COMMON_TOKENS| ==>
           ReportedInt(Fetch(cfg, provider, TokenBalanceQuery(COMMON_TOKENS[i], address))).Ok?
  {
    TokenReadingsAt(cfg, provider, address);
  }

  /** In a 200 wallet reply, the ether balance, the contract flag and the
      transaction list are read off the replies to the three fixed
      requests. */
  lemma WalletLookupFields(cfg: Config, provider: Provider, address: string)
    ensures var r := WalletLookup(cfg, provider, address);
      var balance := Fetch(cfg, provider, BalanceQuery(address));
      var source := Fetch(cfg, provider, SourceCodeQuery(address));
      r.status == OK ==>
        && (r.body.wallet.ethBalanceWei.Some? <==> Succeeded(balance) == Ok(true))
        && ReportedInt(balance) == Ok(r.body.wallet.ethBalanceWei)
        && (r.body.wallet.isContract <==> Succeeded(source) == Ok(true) && HasSourceCode(source.value))
        && Transactions(Fetch(cfg, provider, TxListQuery(address)), address) == Ok(r.body.wallet.transactions)
  {
  }

  /** A built summary's token map lists exactly the registry symbols whose
      reading reports a positive balance, each with that balance. */
  lemma AssembleTokens(balance: Outcome<Option<int>>, isContract: Outcome<bool>,
                       transactions: Outcome<seq<TxRow>>, tokens: seq<Outcome<Option<int>>>)
    requires |tokens| == |COMMON_TOKENS|
    ensures var r := Assemble(balance, isContract, transactions, tokens);
      r.1.Ok? ==>
        var m := r.1.value.tokenBalancesWei;
        && (forall s :: s in m <==>
              exists i :: 0 <= i < |COMMON_TOKENS| && COMMON_TOKENS[i].symbol == s && PositiveBalance(tokens[i]).Some?)
        && (forall i :: 0 <= i < |COMMON_TOKENS| && PositiveBalance(tokens[i]).Some? ==>
              COMMON_TOKENS[i].symbol in m && m[COMMON_TOKENS[i].symbol] == PositiveBalance(tokens[i]).value)
  {
    if Assemble(balance, isContract, transactions, tokens).1.Ok? {
      CommonTokensDistinct();
      TokenBalancesListPositive(COMMON_TOKENS, tokens);
    }
  }

  /** In a 200 wallet reply, the token map lists exactly the registry
      symbols whose balance reply reports a positive balance, each with that
      balance. */
  lemma WalletLookupTokens(cfg: Config, provider: Provider, address: string)
    ensures var r := WalletLookup(cfg, provider, address);
      r.status == OK ==>
        var m := r.body.wallet.tokenBalancesWei;
        && (forall s :: s in m <==>
              exists i :: 0 <= i < |COMMON_TOKENS| && COMMON_TOKENS[i].symbol == s
                && PositiveBalance(ReportedInt(Fetch(cfg, provider, TokenBalanceQuery(COMMON_TOKENS[i], address)))).Some?)
        && (forall i :: 0 <= i < |COMMON_TOKENS| ==>
              var reported := PositiveBalance(ReportedInt(Fetch(cfg, provider, TokenBalanceQuery(COMMON_TOKENS[i], address))));
              reported.Some? ==> COMMON_TOKENS[i].symbol in m && m[COMMON_TOKENS[i].symbol] == reported.value)
  {
    var tokens := TokenReadings(cfg, provider, address);
    var balance := ReportedInt(Fetch(cfg, provider, BalanceQuery(address)));
    var isContract := IsContract(Fetch(cfg, provider, SourceCodeQuery(address)));
    var transactions := Transactions(Fetch(cfg, provider, TxListQuery(address)), address);
    if WalletLookup(cfg, provider, address).status == OK {
      var m := Assemble(balance, isContract, transactions, tokens).1.value.tokenBalancesWei;
      assert WalletLookup(cfg, provider, address).body.wallet.tokenBalancesWei == m;
      AssembleTokens(balance, isContract, transactions, tokens);
      TokenReadingsAt(cfg, provider, address);
    }
  }

  /** When every token request fails, the loop sends them all and adds
      nothing. */
  lemma {:induction false} TokenLoopAllFailed(tokens: seq<Token>, readings: seq<Outcome<Option<int>>>,
                                              acc: map<string, int>)
    requires |readings| == |tokens|
    requires forall i :: 0 <= i < |readings| ==> readings[i] == Ok(None)
    ensures TokenLoop(tokens, readings, acc) == (|tokens|, Ok(acc))
    decreases |tokens|
  {
    if tokens != [] {
      TokenLoopAllFailed(tokens[1..], readings[1..], acc);
    }
  }

  /** When every upstream request fails, a valid address still gets a 200
      after the full sequence of requests, with every field degraded. */
  lemma WalletDegradesToEmpty(cfg: Config, provider: Provider, address: string)
    requires ValidAddress(address)
    requires forall p :: provider(p) == None
    ensures WalletLookup(cfg, provider, address) ==
      Reply(OK, WalletBody(WalletSummary(None, false, [], map[])), Sends(cfg, WalletPlan(address)))
  {
    var tokens := TokenReadings(cfg, provider, address);
    TokenReadingsAt(cfg, provider, address);
    forall i | 0 <= i < |tokens|
      ensures tokens[i] == Ok(None)
    {
      assert Fetch(cfg, provider, TokenBalanceQuery(COMMON_TOKENS[i], address)) == None;
    }
    TokenLoopAllFailed(COMMON_TOKENS, tokens, map[]);
    assert ReportedInt(Fetch(cfg, provider, BalanceQuery(address))) == Ok(None);
    assert IsContract(Fetch(cfg, provider, SourceCodeQuery(address))) == Ok(false);
    assert Transactions(Fetch(cfg, provider, TxListQuery(address)), address) == Ok([]);
  }

  /** The request for each fixed query carries that query's action. */
  lemma FixedQueriesSent(cfg: Config, address: string)
    ensures Send(cfg, BalanceQuery(address)).params["action"] == "balance"
    ensures Send(cfg, SourceCodeQuery(address)).params["action"] == "getsourcecode"
    ensures Send(cfg, TxListQuery(address)).params["action"] == "txlist"
  {
    OutgoingKeeps(cfg, BalanceQuery(address), "action");
    OutgoingKeeps(cfg, SourceCodeQuery(address), "action");
    OutgoingKeeps(cfg, TxListQuery(address), "action");
  }

  /** The request for a token's balance names that token's contract. */
  lemma TokenQuerySent(cfg: Config, token: Token, address: string)
    ensures Send(cfg, TokenBalanceQuery(token, address)).params["action"] == "tokenbalance"
    ensures Send(cfg, TokenBalanceQuery(token, address)).params["contractaddress"] == token.contract
  {
    OutgoingKeeps(cfg, TokenBalanceQuery(token, address), "action");
    OutgoingKeeps(cfg, TokenBalanceQuery(token, address), "contractaddress");
  }

  /** The requests of a full wallet lookup carry the planned actions, in the
      planned order: balance, source code, transaction list, then one token
      balance per registry entry in registry order. */
  lemma WalletCallOrder(cfg: Config, address: string)
    ensures var calls := Sends(cfg, WalletPlan(address));
      && |calls| == 3 + |COMMON_TOKENS|
      && calls[0].params["action"] == "balance"
      && calls[1].params["action"] == "getsourcecode"
      && calls[2].params["action"] == "txlist"
      && forall i :: 0 <= i < |COMMON_TOKENS| ==>
           calls[3 + i].params["action"] == "tokenbalance"
           && calls[3 + i].params["contractaddress"] == COMMON_TOKENS[i].contract
  {
    var plan := WalletPlan(address);
    var calls := Sends(cfg, plan);
    assert calls[0] == Send(cfg, BalanceQuery(address));
    assert calls[1] == Send(cfg, SourceCodeQuery(address));
    assert calls[2] == Send(cfg, TxListQuery(address));
    FixedQueriesSent(cfg, address);
    forall i | 0 <= i < |COMMON_TOKENS|
      ensures calls[3 + i].params["action"] == "tokenbalance"
      ensures calls[3 + i].params["contractaddress"] == COMMON_TOKENS[i].contract
    {
      assert calls[3 + i] == Send(cfg, TokenBalanceQuery(COMMON_TOKENS[i], address));
      TokenQuerySent(cfg, COMMON_TOKENS[i], address);
    }
  }

  /** Only prefix and length are checked: a 42-character `0x` string whose
      other characters are not hexadecimal is accepted. */
  lemma NonHexAddressAccepted()
    ensures ValidAddress("0xZZZZZZZZZZZZZZZZZZZZZZZZZZZZZZZZZZZZZZZZ")
    ensures !ValidAddress("0x12")
    ensures !ValidAddress("1xZZZZZZZZZZZZZZZZZZZZZZZZZZZZZZZZZZZZZZZZ")
  {
    var accepted := "0xZZZZZZZZZZZZZZZZZZZZZZZZZZZZZZZZZZZZZZZZ";
    assert accepted[..2] == [accepted[0], accepted[1]];
    var wrongPrefix := "1xZZZZZZZZZZZZZZZZZZZZZZZZZZZZZZZZZZZZZZZZ";
    assert wrongPrefix[..2][0] == wrongPrefix[0];
  }
}

=== FILE: wrappers.dfy ===
/** Optional values and the outcome of code that may raise an exception. */
module Wrappers {

  datatype Option<+T> = None | Some(value: T)

  /** The result of evaluating a piece of the service's Python code: a value, or
      an exception that nothing catches (Flask turns it into an HTTP 500).
      `Outcome` is failure-compatible, so `var x :- e; ...` propagates `Raised`. */
  datatype Outcome<+T> = Ok(value: T) | Raised {

    predicate IsFailure() {
      Raised?
    }

    function PropagateFailure<U>(): Outcome<U>
      requires Raised?
    {
      Raised
    }

    function Extract(): T
      requires Ok?
    {
      value
    }
  }
}
